=== FILE: README.md ===
# Product catalog form — a Dafny model

This project models the product-catalog component of a small React
application (`src/App.jsx`). The component keeps a list of products, each with:
- an id;
- a name and a description;
- a price in rupiah;
- a category and a release date;
- a stock count and an active flag.

Its form creates a new product or edits an existing one. Before anything is
stored, six inputs are validated, and the messages are in Indonesian. A
notification reports how each action ended.

The model has seven modules:

- `Text`: `trim` (ECMAScript whitespace) and the lower-casing used for the
  case-insensitive name check.
- `Numbers`: `Number(s)` on the price and stock inputs (`None` stands for NaN) and
  `toString` on stored numbers.
- `Dates`: the `YYYY-MM-DD` value of a date input, read as a calendar day and
  compared with today's date.
- `Products`: the product record and the pure list operations the handlers apply:
  - prepend on create;
  - a record-by-record update that merges the new fields into the matching record;
  - a filter on delete;
  - the searches for a duplicate name and for the record to delete.

  It also defines when a list is well formed: ids and case-folded names are
  distinct and every record holds data of the form a successful submit stores. It proves that
  create, update and delete keep a list well formed.
- `Validation`: the form buffer, the six field rules and `Validate`:
  - `Validate` fills the error map field by field, as the component does.
  - It returns exactly `Errors`, the map its rules define.
  - The map is empty exactly when the form is savable (`FormValid`).
  - Every field is judged on its own input alone.
- `Catalog`: the component as a class `App`:
  - its state fields are the product list, the form buffer, the error map, the
    edit mode (`editingId`) and the notification;
  - its methods are the handlers (submit, edit, delete, reset, the input setters
    and the notification).
- `Wrappers`: `Option`.

Inputs from the browser are parameters:
- the saved list, already parsed, goes to the constructor;
- the current date `today` goes to `HandleSubmit`;
- `freshId`, the id a new record gets, goes to `HandleSubmit`;
- the user's answer to the delete confirmation (`confirmed`) goes to `HandleDelete`.

Two edge cases of the component, as the model treats them:
- A non-empty release date that `new Date` cannot read passes validation,
  because comparing an invalid date with the current time is false.
- `JSON.parse` throws on an unreadable saved list. The constructor takes the
  list already parsed, so the model does not cover that case.

A release date is read as midnight UTC of that day and compared with the
current instant. A date is therefore "in the future" exactly when it is a later
calendar day than today's UTC date, and `today` is that UTC date. In time zones
east of UTC, such as Indonesia, this means today's local date is refused as
"in the future" during the first hours of the local day.

## Model

| member | source | states |
|---|---|---|
| Text.Trim | src/App.jsx:56 | the trimmed string has no whitespace at either end, is no longer than the input, and is empty exactly when the input is all whitespace |
| Text.TrimIsInfix | src/App.jsx:56 | the trim is an infix of the input and what is cut off on both sides is whitespace only |
| Text.TrimKeepsTrimmed | src/App.jsx:110-111 | a string with no whitespace at either end, such as a stored name or description, is its own trim |
| Text.TrimIdempotent | src/App.jsx:56 | trimming twice is trimming once |
| Text.TrimSplit | src/App.jsx:56 | every string is its trim with a whitespace-only prefix before it and a whitespace-only suffix after it |
| Text.TrimPadded | src/App.jsx:56 | a non-empty string with no whitespace at either end, padded on both sides with whitespace, trims back to itself |
| Text.Lower | src/App.jsx:62 | lower-casing keeps the length, turns every capital 'A'..'Z' into its small letter 'a'..'z' and keeps every other character |
| Text.SameUpToCaseFoldsEqual | src/App.jsx:62 | two strings that differ only in ASCII case lower-case to the same string |
| Text.LowerIdempotent | src/App.jsx:62 | lower-casing an already lower-cased name changes nothing |
| Numbers.NatToString | src/App.jsx:136 | the decimal string of a natural number is non-empty, all digits, and starts with 0 only for "0" itself |
| Numbers.IntToString | src/App.jsx:136 | the decimal string of an integer has no whitespace at its ends, starts with '-' exactly for negatives, and after that sign holds exactly the canonical digits of the magnitude (no '+', no leading zeros) |
| Numbers.DigitsRoundTrip | src/App.jsx:136 | the digits of a natural number read back as that number |
| Numbers.ParseShowRoundTrip | src/App.jsx:136-139 | `Number` applied to the string `toString` writes for any integer gives that integer back |
| Numbers.ParseNumber | src/App.jsx:71 | `Number` on an input (also at lines 82, 112 and 115): a blank input reads as 0; the other inputs that read as numbers, and their values, are given by Numbers.ParseSignedDigits and Numbers.NumeralParts |
| Numbers.ParseSignedDigits | src/App.jsx:71 | whitespace, an optional '-' or '+', one or more digits (leading zeros allowed) and whitespace read as the signed value of the digits |
| Numbers.NumeralParts | src/App.jsx:71 | conversely, every non-blank input that reads as a number is whitespace, an optional sign, one or more digits and whitespace, and its value is the signed value of those digits |
| Numbers.NumeralShape | src/App.jsx:71 | the trim of a non-blank input that reads as a number is an optional sign followed by one or more digits, and the value is theirs |
| Numbers.MisplacedSignIsNaN | src/App.jsx:71 | a sign between digits ("4-2") or a sign alone ("-") reads as NaN |
| Numbers.NotANumber | src/App.jsx:71 | in the model's integer-only reading of `Number`, an input holding any character other than whitespace, a digit or a sign reads as NaN |
| Dates.After | src/App.jsx:78 | no ensures: the `>` between two days, lexicographic on year, month, day; its order properties are in Dates.AfterIsStrictTotalOrder |
| Dates.AfterIsStrictTotalOrder | src/App.jsx:78 | "later than" on days is irreflexive, transitive and total |
| Dates.ParseDate | src/App.jsx:78 | a date that can be read has a month from 1 to 12 and a day from 1 to 31 |
| Dates.PadDigits | src/App.jsx:204 | a zero-padded field of the date input has exactly its width in digits |
| Dates.PadDigitsValue | src/App.jsx:204 | a zero-padded field reads back as the number written into it |
| Dates.FormatDate | src/App.jsx:204 | the value of a date input has ten characters |
| Dates.ParseFormatRoundTrip | src/App.jsx:78 | every day a date input can produce is read back as that day |
| Dates.PadOfValue | src/App.jsx:78 | a string of digits is the zero-padded field of its own value at its own width |
| Dates.ParseThenFormat | src/App.jsx:78 | every string that reads as a day is exactly the date input's value for that day, so no other spelling is accepted |
| Products.NewRecord | src/App.jsx:121 | the new record has the fresh id and exactly the submitted fields |
| Products.Merge | src/App.jsx:125 | the updated record keeps its id and takes every other field from the submitted data |
| Products.MergeOwnData | src/App.jsx:125 | merging a record's own fields into it gives the same record |
| Products.NameInUse | src/App.jsx:62 | true exactly when some record whose id is not the edited id has the same lower-cased name |
| Products.Find | src/App.jsx:145 | no result exactly when no record has the id; otherwise the first record with that id |
| Products.ApplyUpdate | src/App.jsx:125 | same length; every record keeps its id and position; records with the edited id carry the new data; all others are unchanged |
| Products.UpdateReachesRecord | src/App.jsx:125 | when some record has the edited id, after the update a record with that id carries the submitted fields |
| Products.Remove | src/App.jsx:149 | exactly the records without the id remain; the list is unchanged when no record has the id |
| Products.RemoveConcat | src/App.jsx:149 | the filter distributes over concatenation, so it keeps the order of the remaining records |
| Products.RemoveOne | src/App.jsx:149 | with distinct ids, deleting the record at position k gives the list without that position, one shorter |
| Products.InitialProductsWellFormed | src/App.jsx:9-12 | the two seed records are a well-formed list |
| Products.PrependKeepsWellFormed | src/App.jsx:121 | prepending valid data under an unused id and a name no record uses keeps the list well formed |
| Products.UpdateKeepsWellFormed | src/App.jsx:125 | updating a record with valid data whose name no other record uses keeps the list well formed |
| Products.RemoveKeepsWellFormed | src/App.jsx:149 | deleting keeps the list well formed |
| Products.RemoveKeepsDistinct | src/App.jsx:149 | deleting keeps ids and lower-cased names distinct |
| Products.ConsKeepsDistinct | src/App.jsx:121 | a record whose id and lower-cased name differ from all others can be put in front of a list with distinct ids and names without breaking that |
| Products.ResaveIsNoOp | src/App.jsx:125 | with distinct ids, saving a record's own fields under its id leaves the list unchanged |
| Validation.Form.With | src/App.jsx:170-211 | typing into one input sets that input and leaves every other input and the switch as they were |
| Validation.NameRule | src/App.jsx:58-64 | its error is one of the three name messages; when each occurs is in Validation.NameRuleMessages and Validation.NameRuleIff |
| Validation.DescriptionRule | src/App.jsx:67 | its only error is the too-short message; when is in Validation.DescriptionRuleIff |
| Validation.PriceRule | src/App.jsx:70-71 | its error is the missing or the range message; when each occurs is in Validation.PriceRuleMessages |
| Validation.CategoryRule | src/App.jsx:74 | its only error is the missing message; when is in Validation.CategoryRuleIff |
| Validation.ReleaseDateRule | src/App.jsx:77-78 | its error is the missing or the future message; which one, and when, is in Validation.ReleaseDateRuleMessages, Validation.ReleaseDateRuleIff and Validation.ReleaseDayAgainstToday |
| Validation.StockRule | src/App.jsx:81-82 | its error is the missing or the range message; when each occurs is in Validation.StockRuleMessages |
| Validation.Errors | src/App.jsx:55-84 | no ensures: the map the rules fill in field order; its keys and messages are in Validation.ErrorOfEachField, its emptiness in Validation.ErrorsEmptyIffValid |
| Validation.SubmittedData | src/App.jsx:109-117 | no ensures: the stored fields of a submit; stated by Validation.SavableFormGivesValidData and Validation.EditBufferRoundTrip |
| Validation.BufferOf | src/App.jsx:132-140 | no ensures: the buffer the edit action loads; stated by Validation.EditBufferRoundTrip, Validation.StoredNumbersPass and Validation.EditedRecordRevalidates |
| Validation.Validate | src/App.jsx:54-85 | the error map filled field by field is the map the six rules define, and it is empty exactly when the form is savable |
| Validation.ErrorsEmptyIffValid | src/App.jsx:54-85 | the error map is empty exactly when every one of the six field conditions holds |
| Validation.ErrorsEmptyIffRulesPass | src/App.jsx:54-85 | the error map is empty exactly when none of the six rules produces a message |
| Validation.ErrorOfEachField | src/App.jsx:55-83 | each field is a key exactly when its own rule fails on its own input, then with that rule's message; no other keys appear |
| Validation.ErrorOfField | src/App.jsx:55-83 | for any field, its entry in the error map is decided by its rule applied to its own input |
| Validation.OtherFieldsUnaffected | src/App.jsx:55-83 | changing one input never changes the error (or its absence) on any other field |
| Validation.NameRuleMessages | src/App.jsx:58-64 | "required" exactly when the name is blank, "too long" exactly past 100 trimmed characters, "taken" exactly when a record other than the edited one has the same name ignoring case |
| Validation.NameRuleIff | src/App.jsx:58-64 | the name passes exactly when its trim has 1 to 100 characters and no other record has it ignoring case |
| Validation.OwnNameNotTaken | src/App.jsx:62 | in a well-formed list, saving the edited record's own name is not a duplicate |
| Validation.StoredNameTakenOnCreate | src/App.jsx:62-63 | on create, a name matching a stored one after trimming and ignoring case is refused as taken |
| Validation.CaseVariantTakenOnCreate | src/App.jsx:62-63 | on create, a name that differs from a stored one only in ASCII case is refused as taken |
| Validation.SeedNameInCapitalsTaken | src/App.jsx:62-63 | "LAPTOP GAMING" is refused as taken next to the seed record "Laptop Gaming" |
| Validation.DescriptionRuleIff | src/App.jsx:67 | the description passes exactly when it is blank or has at least 20 characters after trimming |
| Validation.PriceRuleMessages | src/App.jsx:70-71 | "required" exactly for an empty price; the range message exactly for a non-empty price that is NaN or not above 0 |
| Validation.StockRuleMessages | src/App.jsx:81-82 | "required" exactly for an empty stock; the range message exactly for a non-empty stock that is NaN or below 0 |
| Validation.CategoryRuleIff | src/App.jsx:74 | a category is refused only when empty, so every option of the select passes |
| Validation.ZeroStockPassesZeroPriceFails | src/App.jsx:70-82 | stock "0" passes while price "0" fails; an empty stock is missing, but a blank one reads as 0 and passes |
| Validation.StoredNumbersPass | src/App.jsx:136-139 | the strings the edit action writes for a positive price and a non-negative stock pass their rules |
| Validation.ReleaseDateRuleMessages | src/App.jsx:77-78 | an empty release date gets exactly the "required" message, and the "in the future" message is given exactly for a non-empty date that reads as a day after today |
| Validation.ReleaseDateRuleIff | src/App.jsx:77-78 | the release date is refused exactly when empty or a readable day after today |
| Validation.ReleaseDayAgainstToday | src/App.jsx:77-78 | a date input's day passes exactly when it is not after today, and a later day gets the "future" message |
| Validation.ReleasedTodayPasses | src/App.jsx:78 | today's date is not in the future |
| Validation.SavableFormGivesValidData | src/App.jsx:109-117 | a savable form stores valid data under a name no record other than the edited one uses |
| Validation.EditBufferRoundTrip | src/App.jsx:132-142 | loading a valid record into the form and saving it untouched stores exactly its fields |
| Validation.EditedRecordRevalidates | src/App.jsx:132-142 | any record of a well-formed list loaded for editing passes validation unchanged, if its date is not after today |
| Catalog.App.constructor | src/App.jsx:20-39 | the saved list or else the seed list, an empty form, no errors, not editing, no notification |
| Catalog.App.ShowToastMsg | src/App.jsx:48-52 | the notification shows the message in the variant; nothing else changes |
| Catalog.App.CloseToast | src/App.jsx:288 | the notification is hidden; nothing else changes |
| Catalog.App.SetInput | src/App.jsx:170-211 | typing changes that one input of the buffer and nothing else |
| Catalog.App.SetActive | src/App.jsx:217 | the switch changes the active flag of the buffer and nothing else |
| Catalog.App.ResetForm | src/App.jsx:87-97 | empty form, no errors, not editing; the list and the notification are unchanged |
| Catalog.App.HandleSubmit | src/App.jsx:99-130 | with errors, only the error map and the danger notification change; a valid create prepends the new record; a valid update rewrites the edited record in place, and when edit mode was valid some record with the edited id now carries the submitted fields; then the form is reset with the matching success message; edit mode stays valid; the list stays well formed when a new id is unused |
| Catalog.App.HandleEdit | src/App.jsx:132-142 | edit mode points at the record, the buffer holds its fields with numbers as strings, errors are cleared, the list is unchanged |
| Catalog.App.HandleDelete | src/App.jsx:144-153 | nothing changes for an unknown id or a declined confirmation; otherwise the filtered list and the success notification, and edit mode is left exactly when the deleted record was being edited; edit mode stays valid and the list stays well formed |

## Left out

- Rendering: the markup, the components, the table and its row numbers, the
  currency formatting and the 40-character description preview only display data.
- Browser storage: reading and writing the saved list, with its JSON encoding.
  The constructor takes the already parsed saved list, or none.
- The notification's three-second auto-hide timer: only its closing is modelled,
  as `CloseToast`.
- The confirmation dialog is the `confirmed` parameter, and the clock is the
  `today` parameter.
- `Date.now()` is the `freshId` parameter. The code does not guarantee that it is
  unused, so `HandleSubmit` keeps the list well formed only when it is.
- Numbers.ParseNumber: reads integers only, as an optional sign and decimal digits after trimming, with a blank string reading as 0. Fractions, exponents, hexadecimal, `Infinity` and floating-point prices are not modelled. So inputs such as "1.5", "1e3" or "Infinity" get the range message in the model, while the program accepts them as a price or stock.
- Numbers.NumeralParts: stated for the integer-only reading; in the program, fractions, exponents, hexadecimal and `Infinity` also read as numbers.
- Numbers.NotANumber: stated for the integer-only reading; the program's `Number` reads "1.5", "1e3", "Infinity" and "0x10" as numbers, which this lemma calls NaN.
- Numbers.IntToString: prices and stocks are exact unbounded integers. The program's numbers lose precision above 2^53, and its `toString` switches to exponent form from 10^21; `IntToString` never does.
- Text.Lower: folds ASCII letters only, whereas the browser lower-cases every Unicode letter.
- Text.Trim: string lengths count code points, not the UTF-16 code units JavaScript counts, so the 100- and 20-character limits are stated for code points.
- Dates.ParseDate: accepts days 1 to 31 in any month. What the browser does with a day past the end of a month, or with other date formats, is not modelled (such strings read as unreadable).
- The "stock is null" branch of the stock check: the inputs are strings here, so it cannot arise.
- The browser's own limits on the inputs (the name's `maxLength`, number inputs that yield "" for non-numbers): the model lets the form hold any string.

=== FILE: app.dfy ===
/**
 * The product catalog component: the product list, the form buffer, the error
 * map, the edit mode (which record, if any, the form is editing) and the
 * notification, with the handlers that update them.
 */
module Catalog {
  import opened Wrappers
  import opened Dates
  import opened Products
  import opened Validation

  /** The colour of the notification. */
  datatype Variant = Success | Danger

  const InputRejected := "Periksa kembali input Anda, ada data yang tidak valid."
  const ProductAdded := "Produk berhasil ditambahkan."
  const ProductUpdated := "Produk berhasil diperbarui."
  const ProductDeleted := "Produk berhasil dihapus."

  class App {
    var products: seq<Product>
    var form: Form
    var errors: map<Field, string>
    var editingId: Option<int>
    var showToast: bool
    var toastMessage: string
    var toastVariant: Variant

    /** Edit mode always refers to a record that is still in the list. */
    predicate Valid()
      reads this
    {
      editingId.Some? ==> HasId(products, editingId.value)
    }

    /**
     * Mounting the component: the saved list if there is one, otherwise the
     * seed list; an empty form, no errors, not editing, no notification.
     */
    constructor(saved: Option<seq<Product>>)
      ensures products == (if saved.Some? then saved.value else InitialProducts)
      ensures form == EmptyForm && errors == map[] && editingId == None
      ensures !showToast && toastMessage == "" && toastVariant == Success
      ensures Valid()
    {
      products := if saved.Some? then saved.value else InitialProducts;
      form := EmptyForm;
      errors := map[];
      editingId := None;
      showToast := false;
      toastMessage := "";
      toastVariant := Success;
    }

    /** Shows a notification; nothing else changes. */
    method ShowToastMsg(message: string, variant: Variant)
      modifies this
      ensures showToast && toastMessage == message && toastVariant == variant
      ensures products == old(products) && form == old(form) && errors == old(errors) && editingId == old(editingId)
    {
      toastMessage := message;
      toastVariant := variant;
      showToast := true;
    }

    /** Hides the notification; nothing else changes. */
    method CloseToast()
      modifies this
      ensures !showToast && toastMessage == old(toastMessage) && toastVariant == old(toastVariant)
      ensures products == old(products) && form == old(form) && errors == old(errors) && editingId == old(editingId)
    {
      showToast := false;
    }

    /** Typing `v` into the input of field `f` changes that input alone. */
    method SetInput(f: Field, v: string)
      modifies this
      ensures form == old(form).With(f, v)
      ensures products == old(products) && errors == old(errors) && editingId == old(editingId)
      ensures showToast == old(showToast) && toastMessage == old(toastMessage) && toastVariant == old(toastVariant)
    {
      form := form.With(f, v);
    }

    /** Flipping the active switch changes that switch alone. */
    method SetActive(isActive: bool)
      modifies this
      ensures form == old(form).(isActive := isActive)
      ensures products == old(products) && errors == old(errors) && editingId == old(editingId)
      ensures showToast == old(showToast) && toastMessage == old(toastMessage) && toastVariant == old(toastVariant)
    {
      form := form.(isActive := isActive);
    }

    /** Clears the form and the errors and leaves edit mode; the list and the notification stay. */
    method ResetForm()
      modifies this
      ensures form == EmptyForm && errors == map[] && editingId == None
      ensures products == old(products)
      ensures showToast == old(showToast) && toastMessage == old(toastMessage) && toastVariant == old(toastVariant)
      ensures Valid()
    {
      form := EmptyForm;
      errors := map[];
      editingId := None;
    }

    /**
     * Submitting the form on day `today`; `freshId` is the id a new record gets.
     * A form with errors changes only the error map and the notification. A
     * savable form prepends a new record when not editing, or rewrites the fields
     * of the edited record in place; then the form is reset.
     */
    method HandleSubmit(today: Date, freshId: int)
      modifies this
      ensures var rejected := old(Errors(form, products, editingId, today));
        rejected != map[] ==>
          && errors == rejected
          && products == old(products) && form == old(form) && editingId == old(editingId)
          && showToast && toastMessage == InputRejected && toastVariant == Danger
      ensures old(FormValid(form, products, editingId, today)) ==>
          && products == (if old(editingId).None?
                          then [NewRecord(freshId, old(SubmittedData(form)))] + old(products)
                          else ApplyUpdate(old(products), old(editingId).value, old(SubmittedData(form))))
          && form == EmptyForm && errors == map[] && editingId == None
          && showToast && toastVariant == Success
          && toastMessage == (if old(editingId).None? then ProductAdded else ProductUpdated)
      ensures old(Valid()) && old(FormValid(form, products, editingId, today)) && old(editingId).Some? ==>
          exists i :: 0 <= i < |products| && products[i].id == old(editingId).value &&
                      products[i].Data() == old(SubmittedData(form))
      ensures old(Valid()) ==> Valid()
      ensures old(WellFormed(products)) && (old(editingId).None? ==> !HasId(old(products), freshId)) ==>
          WellFormed(products)
    {
      var validationErrors := Validate(form, products, editingId, today);
      errors := validationErrors;

      if |validationErrors| > 0 {
        ShowToastMsg(InputRejected, Danger);
        return;
      }

      var productData := SubmittedData(form);
      SavableFormGivesValidData(form, products, editingId, today);
      ghost var before := products;
      if editingId.None? {
        products := [NewRecord(freshId, productData)] + products;
        if WellFormed(before) && !HasId(before, freshId) {
          PrependKeepsWellFormed(before, freshId, productData);
        }
        ShowToastMsg(ProductAdded, Success);
      } else {
        products := ApplyUpdate(products, editingId.value, productData);
        if HasId(before, editingId.value) {
          UpdateReachesRecord(before, editingId.value, productData);
        }
        if WellFormed(before) {
          UpdateKeepsWellFormed(before, editingId.value, productData);
        }
        ShowToastMsg(ProductUpdated, Success);
      }

      ResetForm();
    }

    /**
     * Loading a record into the form for editing: edit mode points at its id and
     * the errors are cleared; the list does not change.
     */
    method HandleEdit(product: Product)
      modifies this
      ensures editingId == Some(product.id) && form == BufferOf(product) && errors == map[]
      ensures products == old(products)
      ensures showToast == old(showToast) && toastMessage == old(toastMessage) && toastVariant == old(toastVariant)
      ensures HasId(products, product.id) ==> Valid()
    {
      editingId := Some(product.id);
      form := BufferOf(product);
      errors := map[];
    }

    /**
     * Deleting the record with id `id` once the user answered the confirmation
     * with `confirmed`. Nothing happens when no record has that id or the user
     * declines; otherwise every record with that id goes, the rest keep their
     * order, and edit mode is left exactly when it was this record being edited.
     */
    method HandleDelete(id: int, confirmed: bool)
      modifies this
      ensures !HasId(old(products), id) || !confirmed ==> unchanged(this)
      ensures HasId(old(products), id) && confirmed ==>
          && products == Remove(old(products), id)
          && showToast && toastMessage == ProductDeleted && toastVariant == Success
          && (old(editingId) == Some(id) ==> form == EmptyForm && errors == map[] && editingId == None)
          && (old(editingId) != Some(id) ==> form == old(form) && errors == old(errors) && editingId == old(editingId))
      ensures old(Valid()) ==> Valid()
      ensures old(WellFormed(products)) ==> WellFormed(products)
    {
      var target := Find(products, id);
      if target.None? {
        return;
      }

      if confirmed {
        ghost var before := products;
        products := Remove(products, id);
        if WellFormed(before) {
          RemoveKeepsWellFormed(before, id);
        }
        if editingId == Some(id) {
          ResetForm();
        }
        ShowToastMsg(ProductDeleted, Success);
      }
    }
  }
}

=== FILE: dates.dfy ===
/**
 * Release dates. The form keeps a date as the "YYYY-MM-DD" string of a date
 * input; validation reads it with the Date constructor (midnight UTC of that
 * day) and compares it with the current instant, which amounts to comparing
 * calendar days with the current UTC date `today`.
 */
module Dates {
  import opened Wrappers
  import opened Numbers

  datatype Date = Date(year: int, month: int, day: int)

  /** A calendar day the date input can produce. */
  predicate WellFormedDate(d: Date) {
    0 <= d.year <= 9999 && 1 <= d.month <= 12 && 1 <= d.day <= 31
  }

  /** `a` is a strictly later day than `b`. */
  predicate After(a: Date, b: Date) {
    a.year > b.year ||
    (a.year == b.year && (a.month > b.month || (a.month == b.month && a.day > b.day)))
  }

  /** Later-than is a strict total order on days. */
  lemma AfterIsStrictTotalOrder(a: Date, b: Date, c: Date)
    ensures !After(a, a)
    ensures After(a, b) && After(b, c) ==> After(a, c)
    ensures a != b ==> After(a, b) || After(b, a)
  {
  }

  /**
   * new Date(s) on the ISO day format "YYYY-MM-DD"; any other string is an
   * invalid date (None).
   */
  function ParseDate(s: string): (r: Option<Date>)
    ensures r.Some? ==> 1 <= r.value.month <= 12 && 1 <= r.value.day <= 31
  {
    if |s| == 10 && s[4] == '-' && s[7] == '-' &&
       AllDigits(s[..4]) && AllDigits(s[5..7]) && AllDigits(s[8..]) then
      var d := Date(DigitsValue(s[..4]), DigitsValue(s[5..7]), DigitsValue(s[8..]));
      if 1 <= d.month <= 12 && 1 <= d.day <= 31 then Some(d) else None
    else
      None
  }

  function Pow10(w: nat): nat {
    if w == 0 then 1 else 10 * Pow10(w - 1)
  }

  /** The last `w` decimal digits of `n`, zero-padded. */
  function PadDigits(n: nat, w: nat): (r: string)
    ensures |r| == w && AllDigits(r)
  {
    if w == 0 then [] else PadDigits(n / 10, w - 1) + [DigitChar(n % 10)]
  }

  lemma {:induction false} PadDigitsValue(n: nat, w: nat)
    requires n < Pow10(w)
    ensures DigitsValue(PadDigits(n, w)) == n
  {
    if w > 0 {
      assert n / 10 < Pow10(w - 1);
      PadDigitsValue(n / 10, w - 1);
      var r := PadDigits(n, w);
      assert r[..|r| - 1] == PadDigits(n / 10, w - 1);
      assert DigitValue(r[|r| - 1]) == n % 10;
      assert n == (n / 10) * 10 + n % 10;
    }
  }

  /** The value a date input holds for day `d`. */
  function FormatDate(d: Date): (s: string)
    requires WellFormedDate(d)
    ensures |s| == 10
  {
    PadDigits(d.year, 4) + "-" + PadDigits(d.month, 2) + "-" + PadDigits(d.day, 2)
  }

  /** Every day the date input can produce is read back as that day. */
  lemma ParseFormatRoundTrip(d: Date)
    requires WellFormedDate(d)
    ensures ParseDate(FormatDate(d)) == Some(d)
  {
    var s := FormatDate(d);
    assert s[..4] == PadDigits(d.year, 4);
    assert s[5..7] == PadDigits(d.month, 2);
    assert s[8..] == PadDigits(d.day, 2);
    PadDigitsValue(d.year, 4);
    PadDigitsValue(d.month, 2);
    PadDigitsValue(d.day, 2);
  }

  /** A string of digits is the zero-padded field of its own value, at its own width. */
  lemma {:induction false} PadOfValue(x: string)
    requires AllDigits(x)
    ensures DigitsValue(x) < Pow10(|x|)
    ensures PadDigits(DigitsValue(x), |x|) == x
  {
    if x != [] {
      var init := x[..|x| - 1];
      assert AllDigits(init);
      PadOfValue(init);
      var n := DigitsValue(x);
      assert n == DigitsValue(init) * 10 + DigitValue(x[|x| - 1]);
      assert n / 10 == DigitsValue(init);
      assert n % 10 == DigitValue(x[|x| - 1]);
      assert x == init + [x[|x| - 1]];
    }
  }

  /** Every string that reads as a day is the date input's value for that day: no other spelling is accepted. */
  lemma ParseThenFormat(s: string)
    requires ParseDate(s).Some?
    ensures WellFormedDate(ParseDate(s).value)
    ensures FormatDate(ParseDate(s).value) == s
  {
    PadOfValue(s[..4]);
    PadOfValue(s[5..7]);
    PadOfValue(s[8..]);
    assert s == s[..4] + "-" + s[5..7] + "-" + s[8..];
  }
}

=== FILE: numbers.dfy ===
/**
 * The numeric coercions of the form: Number(s) on the strings typed into the
 * price and stock inputs (None stands for NaN) and Number.prototype.toString,
 * which seeds those inputs when a product is edited. Numbers are integers here.
 */
module Numbers {
  import opened Wrappers
  import opened Text

  predicate IsDigit(c: char) {
    '0' <= c <= '9'
  }

  predicate AllDigits(s: string) {
    forall i :: 0 <= i < |s| ==> IsDigit(s[i])
  }

  function DigitChar(d: nat): (c: char)
    requires d < 10
    ensures IsDigit(c)
  {
    ('0' as int + d) as char
  }

  function DigitValue(c: char): (d: nat)
    requires IsDigit(c)
    ensures d < 10 && DigitChar(d) == c
  {
    c as int - '0' as int
  }

  /** The value of a string of decimal digits, most significant first. */
  function DigitsValue(s: string): nat
    requires AllDigits(s)
  {
    if s == [] then 0 else DigitsValue(s[..|s| - 1]) * 10 + DigitValue(s[|s| - 1])
  }

  /** Decimal digits of `n` without leading zeros (the only zero digit of "0" is its own). */
  function NatToString(n: nat): (r: string)
    ensures r != [] && AllDigits(r)
    ensures r[0] == '0' ==> n == 0 && r == "0"
  {
    if n < 10 then [DigitChar(n)] else NatToString(n / 10) + [DigitChar(n % 10)]
  }

  /** Number.prototype.toString on an integer: an optional minus sign, then the digits. */
  function IntToString(n: int): (r: string)
    ensures r != [] && !IsWhitespace(r[0]) && !IsWhitespace(r[|r| - 1])
    ensures (r[0] == '-') == (n < 0)
    ensures r[if n < 0 then 1 else 0..] == NatToString(if n < 0 then -n else n)
  {
    if n < 0 then "-" + NatToString(-n) else NatToString(n)
  }

  /**
   * Number(s) on decimal integer literals: the trimmed string is read as an
   * optional sign followed by at least one digit; an empty or whitespace-only
   * string is 0; anything else is NaN (None).
   */
  function ParseNumber(s: string): (r: Option<int>)
    ensures AllWhitespace(s) ==> r == Some(0)
  {
    ReadNumeral(Trim(s))
  }

  /** The reading of an already trimmed string. */
  function ReadNumeral(t: string): Option<int> {
    if t == [] then Some(0)
    else if (t[0] == '-' || t[0] == '+') && |t| > 1 && AllDigits(t[1..]) then
      var magnitude: int := DigitsValue(t[1..]);
      Some(if t[0] == '-' then -magnitude else magnitude)
    else if AllDigits(t) then Some(DigitsValue(t))
    else None
  }

  /** The value of a numeral with sign `sign` ("", "-" or "+") and digits `digits`. */
  function SignedValue(sign: string, digits: string): int
    requires AllDigits(digits)
  {
    var magnitude: int := DigitsValue(digits);
    if sign == "-" then -magnitude else magnitude
  }

  /** Reading back the digits of `n` gives `n`. */
  lemma {:induction false} DigitsRoundTrip(n: nat)
    ensures DigitsValue(NatToString(n)) == n
  {
    if n >= 10 {
      DigitsRoundTrip(n / 10);
      var s := NatToString(n);
      assert s[..|s| - 1] == NatToString(n / 10);
    }
  }

  /** Reading back the decimal string of `n` gives `n`: the numbers the edit form shows parse back to the stored values. */
  lemma ParseShowRoundTrip(n: int)
    ensures ParseNumber(IntToString(n)) == Some(n)
  {
    var sign := if n < 0 then "-" else "";
    var m: nat := if n < 0 then -n else n;
    DigitsRoundTrip(m);
    assert SignedValue(sign, NatToString(m)) == n;
    assert IntToString(n) == sign + NatToString(m);
    ParseSignedNumeral(sign, NatToString(m));
  }

  /**
   * The numerals Number reads as integers: optional whitespace, an optional sign,
   * at least one digit (leading zeros allowed), optional whitespace.
   */
  lemma ParseSignedDigits(pre: string, sign: string, digits: string, post: string)
    requires AllWhitespace(pre) && AllWhitespace(post)
    requires sign == "" || sign == "-" || sign == "+"
    requires digits != [] && AllDigits(digits)
    ensures ParseNumber(pre + sign + digits + post) == Some(SignedValue(sign, digits))
  {
    var x := sign + digits;
    assert pre + sign + digits + post == pre + x + post;
    assert !IsWhitespace(x[0]) by {
      if sign == "" { assert x[0] == digits[0]; } else { assert x[0] == sign[0]; }
    }
    assert x[|x| - 1] == digits[|digits| - 1];
    TrimPadded(pre, x, post);
    ReadSignedNumeral(sign, digits);
  }

  /** A sign and digits with nothing around them read as their signed value. */
  lemma ParseSignedNumeral(sign: string, digits: string)
    requires sign == "" || sign == "-" || sign == "+"
    requires digits != [] && AllDigits(digits)
    ensures Trim(sign + digits) == sign + digits
    ensures ParseNumber(sign + digits) == Some(SignedValue(sign, digits))
  {
    var x := sign + digits;
    assert x[|x| - 1] == digits[|digits| - 1];
    assert x[0] == (if sign == "" then digits[0] else sign[0]);
    TrimKeepsTrimmed(x);
    ReadSignedNumeral(sign, digits);
  }

  /** The reading of a sign followed by digits. */
  lemma ReadSignedNumeral(sign: string, digits: string)
    requires sign == "" || sign == "-" || sign == "+"
    requires digits != [] && AllDigits(digits)
    ensures ReadNumeral(sign + digits) == Some(SignedValue(sign, digits))
  {
    var x := sign + digits;
    if sign == "" {
      assert x == digits;
    } else {
      assert x[0] == sign[0] && x[1..] == digits;
    }
  }

  /**
   * Conversely, every non-blank string that reads as a number is such a numeral,
   * and its value is the one its sign and digits give.
   */
  lemma NumeralParts(s: string) returns (pre: string, sign: string, digits: string, post: string)
    requires ParseNumber(s).Some? && !AllWhitespace(s)
    ensures s == pre + sign + digits + post
    ensures AllWhitespace(pre) && AllWhitespace(post)
    ensures sign == "" || sign == "-" || sign == "+"
    ensures digits != [] && AllDigits(digits)
    ensures ParseNumber(s) == Some(SignedValue(sign, digits))
  {
    sign, digits := NumeralShape(s);
    pre, post := TrimSplit(s);
    SplitMiddle(s, pre, Trim(s), post, sign, digits);
  }

  /** Splitting the middle part of a three-part string into two. */
  lemma SplitMiddle(s: string, pre: string, mid: string, post: string, left: string, right: string)
    requires s == pre + mid + post && mid == left + right
    ensures s == pre + left + right + post
  {
  }

  /** The trim of a non-blank string that reads as a number splits into its sign and its digits. */
  lemma NumeralShape(s: string) returns (sign: string, digits: string)
    requires ParseNumber(s).Some? && !AllWhitespace(s)
    ensures Trim(s) == sign + digits
    ensures sign == "" || sign == "-" || sign == "+"
    ensures digits != [] && AllDigits(digits)
    ensures ParseNumber(s) == Some(SignedValue(sign, digits))
  {
    var t := Trim(s);
    if (t[0] == '-' || t[0] == '+') && |t| > 1 && AllDigits(t[1..]) {
      sign, digits := t[..1], t[1..];
    } else {
      sign, digits := "", t;
    }
    assert t == sign + digits;
  }

  /** A sign out of place, or a sign alone, is NaN. */
  lemma MisplacedSignIsNaN()
    ensures ParseNumber("4-2") == None && ParseNumber("-") == None
  {
    TrimKeepsTrimmed("4-2");
    assert !IsDigit("4-2"[1]);
    TrimKeepsTrimmed("-");
  }

  /** A string holding a character that is neither whitespace, a digit nor a sign is NaN. */
  lemma NotANumber(s: string, k: nat)
    requires k < |s| && !IsWhitespace(s[k]) && !IsDigit(s[k]) && s[k] != '-' && s[k] != '+'
    ensures ParseNumber(s) == None
  {
  }
}

=== FILE: products.dfy ===
/**
 * Product records and the list transformations the catalog applies to its
 * ordered product list: prepend on create, map-with-merge on update, filter on
 * delete, and the some/find searches over it.
 */
module Products {
  import opened Wrappers
  import opened Text

  /** The fields a submit writes: everything of a record but its id. */
  datatype ProductData = ProductData(
    name: string, description: string, price: int, category: string,
    releaseDate: string, stock: int, isActive: bool)

  datatype Product = Product(
    id: int, name: string, description: string, price: int, category: string,
    releaseDate: string, stock: int, isActive: bool)
  {
    function Data(): ProductData {
      ProductData(name, description, price, category, releaseDate, stock, isActive)
    }
  }

  /** The category options of the form's select. */
  const CategoryOptions: seq<string> := ["Elektronik", "Pakaian", "Makanan", "Minuman", "Lainnya"]

  /** The list shown when nothing has been saved yet. */
  const InitialProducts: seq<Product> := [
    Product(1, "Laptop Gaming",
            "Laptop dengan spesifikasi " + "tinggi untuk gaming " + "dan desain grafis.",
            15000000, "Elektronik", "2023-01-15", 25, true),
    Product(2, "Kaos Polos",
            "Kaos katun combed 30s, " + "nyaman dipakai sehari-hari.",
            75000, "Pakaian", "2022-08-20", 150, true)
  ]

  /** The record a create stores: the given id with exactly the given fields. */
  function NewRecord(id: int, d: ProductData): (p: Product)
    ensures p.id == id && p.Data() == d
  {
    Product(id, d.name, d.description, d.price, d.category, d.releaseDate, d.stock, d.isActive)
  }

  /** The record an update stores: `p` keeps its id and takes every other field from `d`. */
  function Merge(p: Product, d: ProductData): (r: Product)
    ensures r.id == p.id && r.Data() == d
  {
    p.(name := d.name, description := d.description, price := d.price, category := d.category,
       releaseDate := d.releaseDate, stock := d.stock, isActive := d.isActive)
  }

  /** Merging a record's own fields back into it gives the same record. */
  lemma MergeOwnData(p: Product)
    ensures Merge(p, p.Data()) == p
  {
  }

  predicate HasId(ps: seq<Product>, id: int) {
    exists p :: p in ps && p.id == id
  }

  /**
   * The duplicate-name search: some record other than the one being edited has
   * the lower-cased name `key`.
   */
  function NameInUse(ps: seq<Product>, key: string, editingId: Option<int>): (r: bool)
    ensures r <==> exists i :: 0 <= i < |ps| && Lower(ps[i].name) == key && editingId != Some(ps[i].id)
  {
    if ps == [] then false
    else
      var rest := NameInUse(ps[1..], key, editingId);
      assert rest <==> exists i :: 1 <= i < |ps| && Lower(ps[i].name) == key && editingId != Some(ps[i].id) by {
        forall i | 1 <= i < |ps| ensures ps[1..][i - 1] == ps[i] { }
      }
      (Lower(ps[0].name) == key && editingId != Some(ps[0].id)) || rest
  }

  /** The lookup before a delete: the first record with that id, if there is one. */
  function Find(ps: seq<Product>, id: int): (r: Option<Product>)
    ensures r.None? <==> !HasId(ps, id)
    ensures r.Some? ==> exists i :: 0 <= i < |ps| && ps[i] == r.value && r.value.id == id &&
                                  forall j :: 0 <= j < i ==> ps[j].id != id
  {
    if ps == [] then None
    else if ps[0].id == id then Some(ps[0])
    else
      var r := Find(ps[1..], id);
      assert HasId(ps, id) ==> HasId(ps[1..], id);
      assert r.Some? ==> exists i :: 1 <= i < |ps| && ps[i] == r.value && r.value.id == id &&
                                    forall j :: 0 <= j < i ==> ps[j].id != id by {
        if r.Some? {
          var i :| 0 <= i < |ps| - 1 && ps[1..][i] == r.value && r.value.id == id &&
                   forall j :: 0 <= j < i ==> ps[1..][j].id != id;
          assert forall j :: 0 <= j < i + 1 ==> ps[j].id != id by {
            forall j | 0 < j < i + 1 ensures ps[j].id != id { assert ps[j] == ps[1..][j - 1]; }
          }
        }
      }
      r
  }

  /**
   * The update of the list, record by record: the list keeps its length and every
   * record its id and position; the records with that id carry `d`, all others are untouched.
   */
  function ApplyUpdate(ps: seq<Product>, id: int, d: ProductData): (r: seq<Product>)
    ensures |r| == |ps|
    ensures forall i :: 0 <= i < |ps| ==> r[i].id == ps[i].id
    ensures forall i :: 0 <= i < |ps| && ps[i].id == id ==> r[i].Data() == d
    ensures forall i :: 0 <= i < |ps| && ps[i].id != id ==> r[i] == ps[i]
  {
    if ps == [] then []
    else [if ps[0].id == id then Merge(ps[0], d) else ps[0]] + ApplyUpdate(ps[1..], id, d)
  }

  /** When some record has the id, the update leaves a record with that id carrying `d`. */
  lemma UpdateReachesRecord(ps: seq<Product>, id: int, d: ProductData)
    requires HasId(ps, id)
    ensures exists i :: 0 <= i < |ps| && ApplyUpdate(ps, id, d)[i].id == id && ApplyUpdate(ps, id, d)[i].Data() == d
  {
    var p :| p in ps && p.id == id;
    var i :| 0 <= i < |ps| && ps[i] == p;
    assert ApplyUpdate(ps, id, d)[i].Data() == d;
  }

  /**
   * The delete of the list, a filter: exactly the records without that id remain,
   * and nothing changes when no record has it.
   */
  function Remove(ps: seq<Product>, id: int): (r: seq<Product>)
    ensures |r| <= |ps|
    ensures forall p :: p in r <==> p in ps && p.id != id
    ensures !HasId(ps, id) ==> r == ps
  {
    if ps == [] then []
    else if ps[0].id == id then Remove(ps[1..], id)
    else [ps[0]] + Remove(ps[1..], id)
  }

  /** Filtering keeps order: it distributes over concatenation. */
  lemma {:induction false} RemoveConcat(a: seq<Product>, b: seq<Product>, id: int)
    ensures Remove(a + b, id) == Remove(a, id) + Remove(b, id)
  {
    if a != [] {
      assert (a + b)[0] == a[0];
      assert (a + b)[1..] == a[1..] + b;
      RemoveConcat(a[1..], b, id);
      if a[0].id != id {
        calc {
          Remove(a + b, id);
          [a[0]] + Remove(a[1..] + b, id);
          [a[0]] + (Remove(a[1..], id) + Remove(b, id));
          ([a[0]] + Remove(a[1..], id)) + Remove(b, id);
        }
      }
    } else {
      assert a + b == b;
    }
  }

  /** With unique ids, deleting a present id removes exactly that one record, in place. */
  lemma RemoveOne(ps: seq<Product>, k: nat)
    requires IdsUnique(ps) && k < |ps|
    ensures Remove(ps, ps[k].id) == ps[..k] + ps[k + 1..]
    ensures |Remove(ps, ps[k].id)| == |ps| - 1
  {
    var id := ps[k].id;
    var before, after := ps[..k], ps[k + 1..];
    assert ps == before + ([ps[k]] + after);
    RemoveConcat(before, [ps[k]] + after, id);
    RemoveConcat([ps[k]], after, id);
    assert Remove([ps[k]], id) == [] by {
      assert [ps[k]][1..] == [];
    }
    assert !HasId(before, id) by {
      forall j | 0 <= j < k ensures before[j].id != id {
        assert before[j] == ps[j];
      }
    }
    assert !HasId(after, id) by {
      forall j | 0 <= j < |after| ensures after[j].id != id {
        assert after[j] == ps[k + 1 + j];
      }
    }
  }

  // ---- Well-formed lists: what create, update and delete keep true ----

  /** What a validated submit can store: trimmed bounded name, optional long-enough description, positive price, non-negative stock. */
  predicate ValidData(d: ProductData) {
    && Trimmed(d.name) && 1 <= |d.name| <= 100
    && Trimmed(d.description) && (|d.description| == 0 || |d.description| >= 20)
    && d.price > 0
    && d.category != ""
    && d.releaseDate != ""
    && d.stock >= 0
  }

  predicate IdsUnique(ps: seq<Product>) {
    forall i, j :: 0 <= i < j < |ps| ==> ps[i].id != ps[j].id
  }

  predicate NamesUnique(ps: seq<Product>) {
    forall i, j :: 0 <= i < j < |ps| ==> Lower(ps[i].name) != Lower(ps[j].name)
  }

  predicate AllValid(ps: seq<Product>) {
    forall i :: 0 <= i < |ps| ==> ValidData(ps[i].Data())
  }

  predicate WellFormed(ps: seq<Product>) {
    IdsUnique(ps) && NamesUnique(ps) && AllValid(ps)
  }

  /**
   * The seed list is well formed. (Its descriptions are written as concatenations
   * of shorter literals because the verifier reads the characters of short
   * literals only.)
   */
  lemma InitialProductsWellFormed()
    ensures WellFormed(InitialProducts)
  {
    var p0, p1 := InitialProducts[0], InitialProducts[1];
    assert |Lower(p0.name)| != |Lower(p1.name)|;
    assert ValidData(p0.Data()) && ValidData(p1.Data());
  }

  /** Prepending a valid record with a fresh id and an unused name keeps a list well formed. */
  lemma PrependKeepsWellFormed(ps: seq<Product>, id: int, d: ProductData)
    requires WellFormed(ps) && ValidData(d) && !HasId(ps, id)
    requires forall i :: 0 <= i < |ps| ==> Lower(ps[i].name) != Lower(d.name)
    ensures WellFormed([NewRecord(id, d)] + ps)
  {
    var r := [NewRecord(id, d)] + ps;
    forall i, j | 0 <= i < j < |r| ensures r[i].id != r[j].id && Lower(r[i].name) != Lower(r[j].name) {
      assert r[j] == ps[j - 1];
      if i > 0 { assert r[i] == ps[i - 1]; }
    }
  }

  /**
   * Updating with valid fields whose name no other record uses keeps a list
   * well formed: ids are untouched and, ids being unique, only one record changes.
   */
  lemma UpdateKeepsWellFormed(ps: seq<Product>, id: int, d: ProductData)
    requires WellFormed(ps) && ValidData(d)
    requires forall i :: 0 <= i < |ps| && ps[i].id != id ==> Lower(ps[i].name) != Lower(d.name)
    ensures WellFormed(ApplyUpdate(ps, id, d))
  {
    var r := ApplyUpdate(ps, id, d);
    forall i | 0 <= i < |r| ensures ValidData(r[i].Data()) {
    }
    forall i, j | 0 <= i < j < |r| ensures Lower(r[i].name) != Lower(r[j].name) {
      if ps[i].id == id {
        assert r[i].name == d.name;
      } else if ps[j].id == id {
        assert r[j].name == d.name;
      }
    }
  }

  /** Deleting keeps a list well formed. */
  lemma RemoveKeepsWellFormed(ps: seq<Product>, id: int)
    requires WellFormed(ps)
    ensures WellFormed(Remove(ps, id))
  {
    var r := Remove(ps, id);
    forall i | 0 <= i < |r| ensures ValidData(r[i].Data()) {
      assert r[i] in ps;
    }
    RemoveKeepsDistinct(ps, id);
  }

  /** Filtering a list whose ids and folded names are distinct keeps them distinct. */
  lemma {:induction false} RemoveKeepsDistinct(ps: seq<Product>, id: int)
    requires IdsUnique(ps) && NamesUnique(ps)
    ensures IdsUnique(Remove(ps, id)) && NamesUnique(Remove(ps, id))
  {
    if ps != [] {
      var tail := ps[1..];
      assert IdsUnique(tail) && NamesUnique(tail) by {
        forall i | 0 <= i < |tail| ensures tail[i] == ps[i + 1] { }
      }
      RemoveKeepsDistinct(tail, id);
      if ps[0].id != id {
        var rest := Remove(tail, id);
        forall q | q in rest ensures q.id != ps[0].id && Lower(q.name) != Lower(ps[0].name) {
          var k :| 0 <= k < |tail| && tail[k] == q;
          assert ps[k + 1] == q;
        }
        ConsKeepsDistinct(ps[0], rest);
      }
    }
  }

  /** Putting a record in front of a distinct list keeps it distinct when its id and folded name are new. */
  lemma ConsKeepsDistinct(p: Product, rest: seq<Product>)
    requires IdsUnique(rest) && NamesUnique(rest)
    requires forall q | q in rest :: q.id != p.id && Lower(q.name) != Lower(p.name)
    ensures IdsUnique([p] + rest) && NamesUnique([p] + rest)
  {
    var r := [p] + rest;
    forall i, j | 0 <= i < j < |r| ensures r[i].id != r[j].id && Lower(r[i].name) != Lower(r[j].name) {
      assert r[j] == rest[j - 1];
      assert r[j] in rest;
      if i > 0 { assert r[i] == rest[i - 1]; }
    }
  }

  /** Re-saving a record's own fields leaves a list with unique ids unchanged. */
  lemma ResaveIsNoOp(ps: seq<Product>, k: nat)
    requires IdsUnique(ps) && k < |ps|
    ensures ApplyUpdate(ps, ps[k].id, ps[k].Data()) == ps
  {
    var r := ApplyUpdate(ps, ps[k].id, ps[k].Data());
    forall i | 0 <= i < |ps| ensures r[i] == ps[i] {
      if i == k {
        MergeOwnData(ps[k]);
      }
    }
  }
}

=== FILE: text.dfy ===
/**
 * The two string operations the catalog form relies on: trimming
 * (String.prototype.trim) and lower-casing for the case-insensitive name
 * comparison (String.prototype.toLowerCase, ASCII letters only).
 */
module Text {

  /** The characters trim removes: ECMAScript WhiteSpace and LineTerminator code points. */
  predicate IsWhitespace(c: char) {
    var n := c as int;
    n == 0x09 || n == 0x0A || n == 0x0B || n == 0x0C || n == 0x0D || n == 0x20 ||
    n == 0xA0 || n == 0x1680 || (0x2000 <= n <= 0x200A) || n == 0x2028 || n == 0x2029 ||
    n == 0x202F || n == 0x205F || n == 0x3000 || n == 0xFEFF
  }

  predicate AllWhitespace(s: string) {
    forall i :: 0 <= i < |s| ==> IsWhitespace(s[i])
  }

  /** The first index at or after `from` that does not hold whitespace (|s| if there is none). */
  function SkipWhitespace(s: string, from: nat): (k: nat)
    requires from <= |s|
    ensures from <= k <= |s|
    ensures forall i :: from <= i < k ==> IsWhitespace(s[i])
    ensures k == |s| || !IsWhitespace(s[k])
    decreases |s| - from
  {
    if from < |s| && IsWhitespace(s[from]) then SkipWhitespace(s, from + 1) else from
  }

  /** The end of the content of s[lo..hi]: the least k >= lo after which only whitespace follows up to `hi`. */
  function BackOverWhitespace(s: string, lo: nat, hi: nat): (k: nat)
    requires lo <= hi <= |s|
    ensures lo <= k <= hi
    ensures forall i :: k <= i < hi ==> IsWhitespace(s[i])
    ensures k == lo || !IsWhitespace(s[k - 1])
    decreases hi
  {
    if hi > lo && IsWhitespace(s[hi - 1]) then BackOverWhitespace(s, lo, hi - 1) else hi
  }

  /**
   * String.prototype.trim: the infix of `s` between a whitespace-only prefix and a
   * whitespace-only suffix, with no whitespace at either end.
   */
  function Trim(s: string): (r: string)
    ensures |r| <= |s|
    ensures Trimmed(r)
    ensures r == [] <==> AllWhitespace(s)
  {
    var start := SkipWhitespace(s, 0);
    var end := BackOverWhitespace(s, start, |s|);
    s[start..end]
  }

  /** The infix characterisation of Trim: what is cut off on either side is whitespace only. */
  lemma TrimIsInfix(s: string) returns (i: nat)
    ensures i + |Trim(s)| <= |s|
    ensures Trim(s) == s[i..i + |Trim(s)|]
    ensures AllWhitespace(s[..i]) && AllWhitespace(s[i + |Trim(s)|..])
  {
    i := SkipWhitespace(s, 0);
    var end := BackOverWhitespace(s, i, |s|);
    assert Trim(s) == s[i..end];
  }

  /** Every string is its trim between a whitespace-only prefix and a whitespace-only suffix. */
  lemma TrimSplit(s: string) returns (pre: string, post: string)
    ensures s == pre + Trim(s) + post
    ensures AllWhitespace(pre) && AllWhitespace(post)
  {
    var i := TrimIsInfix(s);
    pre, post := s[..i], s[i + |Trim(s)|..];
    assert s == s[..i] + s[i..i + |Trim(s)|] + s[i + |Trim(s)|..];
  }

  /** No whitespace at either end. */
  predicate Trimmed(s: string) {
    s == [] || (!IsWhitespace(s[0]) && !IsWhitespace(s[|s| - 1]))
  }

  /** A string with no whitespace at either end is its own trim. */
  lemma TrimKeepsTrimmed(s: string)
    requires Trimmed(s)
    ensures Trim(s) == s
  {
    if s != [] {
      assert SkipWhitespace(s, 0) == 0;
      assert BackOverWhitespace(s, 0, |s|) == |s|;
    }
  }

  /** Padding a non-empty trimmed string with whitespace on both sides and trimming gives the string back. */
  lemma TrimPadded(pre: string, x: string, post: string)
    requires AllWhitespace(pre) && AllWhitespace(post)
    requires x != [] && Trimmed(x)
    ensures Trim(pre + x + post) == x
  {
    var s := pre + x + post;
    assert s[|pre|] == x[0];
    assert SkipWhitespace(s, 0) == |pre| by {
      SkipPastPrefix(s, pre, 0);
    }
    assert s[|pre| + |x| - 1] == x[|x| - 1];
    assert BackOverWhitespace(s, |pre|, |s|) == |pre| + |x| by {
      BackPastSuffix(s, |pre|, |pre| + |x|, |s|);
    }
    assert s[|pre|..|pre| + |x|] == x;
  }

  /** Skipping from inside a whitespace prefix stops no earlier than the prefix's end. */
  lemma {:induction false} SkipPastPrefix(s: string, pre: string, from: nat)
    requires |pre| <= |s| && s[..|pre|] == pre && AllWhitespace(pre) && from <= |pre|
    requires |pre| < |s| && !IsWhitespace(s[|pre|])
    ensures SkipWhitespace(s, from) == |pre|
    decreases |pre| - from
  {
    if from < |pre| {
      assert s[from] == pre[from];
      SkipPastPrefix(s, pre, from + 1);
    }
  }

  /** Backing over a whitespace suffix from `hi` stops at `end` when the character before `end` is not whitespace. */
  lemma {:induction false} BackPastSuffix(s: string, lo: nat, end: nat, hi: nat)
    requires lo < end <= hi <= |s|
    requires forall i :: end <= i < hi ==> IsWhitespace(s[i])
    requires !IsWhitespace(s[end - 1])
    ensures BackOverWhitespace(s, lo, hi) == end
    decreases hi
  {
    if hi > end {
      BackPastSuffix(s, lo, end, hi - 1);
    }
  }

  /** Trimming twice is trimming once. */
  lemma TrimIdempotent(s: string)
    ensures Trim(Trim(s)) == Trim(s)
  {
    TrimKeepsTrimmed(Trim(s));
  }

  /** String.prototype.toLowerCase on one character, for the ASCII letters only. */
  function LowerChar(c: char): char {
    if 'A' <= c <= 'Z' then (c as int + 32) as char else c
  }

  /**
   * toLowerCase on ASCII: the result has the same length, every capital 'A'..'Z'
   * becomes its small letter 'a'..'z', and every other character is kept.
   */
  function Lower(s: string): (r: string)
    ensures |r| == |s|
    ensures forall i :: 0 <= i < |s| && 'A' <= s[i] <= 'Z' ==> r[i] == (s[i] as int + 32) as char && 'a' <= r[i] <= 'z'
    ensures forall i :: 0 <= i < |s| && !('A' <= s[i] <= 'Z') ==> r[i] == s[i]
    ensures forall i :: 0 <= i < |r| ==> !('A' <= r[i] <= 'Z')
  {
    seq(|s|, i requires 0 <= i < |s| => LowerChar(s[i]))
  }

  /** `a` and `b` agree up to ASCII case: at every position, the same letter in either case or the same character. */
  predicate SameUpToCase(a: string, b: string) {
    |a| == |b| &&
    forall i :: 0 <= i < |a| ==>
      a[i] == b[i] || ('A' <= a[i] <= 'Z' && b[i] as int == a[i] as int + 32) ||
      ('A' <= b[i] <= 'Z' && a[i] as int == b[i] as int + 32)
  }

  /** Strings that differ only in ASCII case fold to the same string, so the name check cannot tell them apart. */
  lemma SameUpToCaseFoldsEqual(a: string, b: string)
    requires SameUpToCase(a, b)
    ensures Lower(a) == Lower(b)
  {
    forall i | 0 <= i < |a| ensures Lower(a)[i] == Lower(b)[i] {
    }
  }

  /** Folding an already folded string changes nothing. */
  lemma LowerIdempotent(s: string)
    ensures Lower(Lower(s)) == Lower(s)
  {
  }
}

=== FILE: validation.dfy ===
/**
 * Field validation of the product form. The form buffer holds the raw input
 * strings; every one of the six checked fields is judged on its own, and the
 * result maps each failing field to its message (an empty map means the form
 * may be saved).
 */
module Validation {
  import opened Wrappers
  import opened Text
  import opened Numbers
  import opened Dates
  import opened Products

  datatype Field = Name | Description | Price | Category | ReleaseDate | Stock

  const AllFields: set<Field> := {Name, Description, Price, Category, ReleaseDate, Stock}

  /** The form buffer: what the inputs currently hold. */
  datatype Form = Form(
    name: string, description: string, price: string, category: string,
    releaseDate: string, stock: string, isActive: bool)
  {
    /** The input behind a checked field. */
    function Entry(f: Field): string {
      match f
      case Name => name
      case Description => description
      case Price => price
      case Category => category
      case ReleaseDate => releaseDate
      case Stock => stock
    }

    /** The buffer after typing `v` into the input of field `f`. */
    function With(f: Field, v: string): (r: Form)
      ensures r.Entry(f) == v && r.isActive == isActive
      ensures forall g :: g != f ==> r.Entry(g) == Entry(g)
    {
      match f
      case Name => this.(name := v)
      case Description => this.(description := v)
      case Price => this.(price := v)
      case Category => this.(category := v)
      case ReleaseDate => this.(releaseDate := v)
      case Stock => this.(stock := v)
    }
  }

  /** The cleared form: every input empty, the active switch on. */
  const EmptyForm := Form("", "", "", "", "", "", true)

  const NameRequired := "Nama Produk wajib diisi."
  const NameTooLong := "Maksimal 100 karakter."
  const NameTaken := "Nama Produk sudah ada."
  const DescriptionTooShort := "Minimal 20 karakter."
  const PriceRequired := "Harga wajib diisi."
  const PriceInvalid := "Harga harus angka dan lebih besar dari 0."
  const CategoryRequired := "Kategori wajib dipilih."
  const ReleaseDateRequired := "Tanggal Rilis wajib diisi."
  const ReleaseDateInFuture := "Tanggal tidak boleh di masa depan."
  const StockRequired := "Stok wajib diisi."
  const StockInvalid := "Stok harus angka dan minimal 0."

  // ---- The rule of each field ----

  /** The name's error, if any: one of the name's three messages. */
  function NameRule(name: string, products: seq<Product>, editingId: Option<int>): (r: Option<string>)
    ensures r.Some? ==> r.value == NameRequired || r.value == NameTooLong || r.value == NameTaken
  {
    var trimmed := Trim(name);
    if trimmed == [] then Some(NameRequired)
    else if |trimmed| > 100 then Some(NameTooLong)
    else if NameInUse(products, Lower(trimmed), editingId) then Some(NameTaken)
    else None
  }

  /** The description's error, if any: only the too-short message. */
  function DescriptionRule(description: string): (r: Option<string>)
    ensures r.Some? ==> r.value == DescriptionTooShort
  {
    if |Trim(description)| > 0 && |Trim(description)| < 20 then Some(DescriptionTooShort) else None
  }

  /** The price's error, if any: missing or out of range. */
  function PriceRule(price: string): (r: Option<string>)
    ensures r.Some? ==> r.value == PriceRequired || r.value == PriceInvalid
  {
    if price == [] then Some(PriceRequired)
    else if ParseNumber(price).None? || ParseNumber(price).value <= 0 then Some(PriceInvalid)
    else None
  }

  /** The category's error, if any: only the missing message. */
  function CategoryRule(category: string): (r: Option<string>)
    ensures r.Some? ==> r.value == CategoryRequired
  {
    if category == [] then Some(CategoryRequired) else None
  }

  /**
   * The release date's error, if any: missing or in the future. An unreadable
   * date is never "after" today, so only a readable future date is refused.
   */
  function ReleaseDateRule(releaseDate: string, today: Date): (r: Option<string>)
    ensures r.Some? ==> r.value == ReleaseDateRequired || r.value == ReleaseDateInFuture
  {
    if releaseDate == [] then Some(ReleaseDateRequired)
    else if ParseDate(releaseDate).Some? && After(ParseDate(releaseDate).value, today) then Some(ReleaseDateInFuture)
    else None
  }

  /** The stock's error, if any: missing or out of range. */
  function StockRule(stock: string): (r: Option<string>)
    ensures r.Some? ==> r.value == StockRequired || r.value == StockInvalid
  {
    if stock == [] then Some(StockRequired)
    else if ParseNumber(stock).None? || ParseNumber(stock).value < 0 then Some(StockInvalid)
    else None
  }

  /** Records the error of field `f`, if its rule produced one. */
  function AddError(errors: map<Field, string>, f: Field, error: Option<string>): map<Field, string> {
    if error.Some? then errors[f := error.value] else errors
  }

  /**
   * The error map of a form: each field's rule applied in turn to that field's
   * input alone, in the order name, description, price, category, release date, stock.
   */
  function Errors(form: Form, products: seq<Product>, editingId: Option<int>, today: Date): map<Field, string> {
    var errors := AddError(map[], Name, NameRule(form.name, products, editingId));
    var errors := AddError(errors, Description, DescriptionRule(form.description));
    var errors := AddError(errors, Price, PriceRule(form.price));
    var errors := AddError(errors, Category, CategoryRule(form.category));
    var errors := AddError(errors, ReleaseDate, ReleaseDateRule(form.releaseDate, today));
    AddError(errors, Stock, StockRule(form.stock))
  }

  /**
   * What a savable form is, stated rule by rule: a trimmed name of 1 to 100
   * characters that no other record uses (ignoring case), a description that is
   * blank or has at least 20 characters, a positive price, a category, a release
   * date that is not a readable day after today, and a non-negative stock.
   */
  predicate FormValid(form: Form, products: seq<Product>, editingId: Option<int>, today: Date) {
    var name := Trim(form.name);
    && 1 <= |name| <= 100
    && (forall i :: 0 <= i < |products| && editingId != Some(products[i].id) ==> Lower(products[i].name) != Lower(name))
    && (AllWhitespace(form.description) || |Trim(form.description)| >= 20)
    && form.price != [] && ParseNumber(form.price).Some? && ParseNumber(form.price).value > 0
    && form.category != []
    && form.releaseDate != [] && !(ParseDate(form.releaseDate).Some? && After(ParseDate(form.releaseDate).value, today))
    && form.stock != [] && ParseNumber(form.stock).Some? && ParseNumber(form.stock).value >= 0
  }

  /**
   * The validation pass: fills the error map field by field, checking every
   * field whatever the others hold.
   */
  method Validate(form: Form, products: seq<Product>, editingId: Option<int>, today: Date)
    returns (errors: map<Field, string>)
    ensures errors == Errors(form, products, editingId, today)
    ensures errors == map[] <==> FormValid(form, products, editingId, today)
  {
    errors := map[];
    var nameError := NameRule(form.name, products, editingId);
    if nameError.Some? {
      errors := errors[Name := nameError.value];
    }
    assert errors == AddError(map[], Name, nameError);
    ghost var previous := errors;
    var descriptionError := DescriptionRule(form.description);
    if descriptionError.Some? {
      errors := errors[Description := descriptionError.value];
    }
    assert errors == AddError(previous, Description, descriptionError);
    previous := errors;
    var priceError := PriceRule(form.price);
    if priceError.Some? {
      errors := errors[Price := priceError.value];
    }
    assert errors == AddError(previous, Price, priceError);
    previous := errors;
    var categoryError := CategoryRule(form.category);
    if categoryError.Some? {
      errors := errors[Category := categoryError.value];
    }
    assert errors == AddError(previous, Category, categoryError);
    previous := errors;
    var releaseDateError := ReleaseDateRule(form.releaseDate, today);
    if releaseDateError.Some? {
      errors := errors[ReleaseDate := releaseDateError.value];
    }
    assert errors == AddError(previous, ReleaseDate, releaseDateError);
    previous := errors;
    var stockError := StockRule(form.stock);
    if stockError.Some? {
      errors := errors[Stock := stockError.value];
    }
    assert errors == AddError(previous, Stock, stockError);
    ErrorsEmptyIffValid(form, products, editingId, today);
  }

  /** The error map is empty exactly when the form is savable. */
  lemma ErrorsEmptyIffValid(form: Form, products: seq<Product>, editingId: Option<int>, today: Date)
    ensures Errors(form, products, editingId, today) == map[] <==> FormValid(form, products, editingId, today)
  {
    ErrorsEmptyIffRulesPass(form, products, editingId, today);
    NameRuleIff(form.name, products, editingId);
    DescriptionRuleIff(form.description);
  }

  /** The error map is empty exactly when each of the six rules passes. */
  lemma ErrorsEmptyIffRulesPass(form: Form, products: seq<Product>, editingId: Option<int>, today: Date)
    ensures Errors(form, products, editingId, today) == map[] <==>
      && NameRule(form.name, products, editingId).None?
      && DescriptionRule(form.description).None?
      && PriceRule(form.price).None?
      && CategoryRule(form.category).None?
      && ReleaseDateRule(form.releaseDate, today).None?
      && StockRule(form.stock).None?
  {
    ErrorOfEachField(form, products, editingId, today);
  }

  /**
   * Every field is judged on its own: a field is in the error map exactly when
   * its own rule, applied to its own input, fails, and it then carries that
   * rule's message; no other key appears.
   */
  lemma ErrorOfEachField(form: Form, products: seq<Product>, editingId: Option<int>, today: Date)
    ensures var errors := Errors(form, products, editingId, today);
      && errors.Keys <= AllFields
      && (Name in errors <==> NameRule(form.name, products, editingId).Some?)
      && (Description in errors <==> DescriptionRule(form.description).Some?)
      && (Price in errors <==> PriceRule(form.price).Some?)
      && (Category in errors <==> CategoryRule(form.category).Some?)
      && (ReleaseDate in errors <==> ReleaseDateRule(form.releaseDate, today).Some?)
      && (Stock in errors <==> StockRule(form.stock).Some?)
      && (Name in errors ==> errors[Name] == NameRule(form.name, products, editingId).value)
      && (Description in errors ==> errors[Description] == DescriptionRule(form.description).value)
      && (Price in errors ==> errors[Price] == PriceRule(form.price).value)
      && (Category in errors ==> errors[Category] == CategoryRule(form.category).value)
      && (ReleaseDate in errors ==> errors[ReleaseDate] == ReleaseDateRule(form.releaseDate, today).value)
      && (Stock in errors ==> errors[Stock] == StockRule(form.stock).value)
  {
  }

  // ---- Each field on its own ----

  /** The rule of field `f`, applied to an input `value` for that field. */
  function Rule(f: Field, value: string, products: seq<Product>, editingId: Option<int>, today: Date): Option<string> {
    match f
    case Name => NameRule(value, products, editingId)
    case Description => DescriptionRule(value)
    case Price => PriceRule(value)
    case Category => CategoryRule(value)
    case ReleaseDate => ReleaseDateRule(value, today)
    case Stock => StockRule(value)
  }

  /** Field `f` has an error exactly when its rule fails on its own input, and the error is that rule's message. */
  lemma ErrorOfField(form: Form, products: seq<Product>, editingId: Option<int>, today: Date, f: Field)
    ensures f in Errors(form, products, editingId, today) <==> Rule(f, form.Entry(f), products, editingId, today).Some?
    ensures f in Errors(form, products, editingId, today) ==>
      Errors(form, products, editingId, today)[f] == Rule(f, form.Entry(f), products, editingId, today).value
  {
    ErrorOfEachField(form, products, editingId, today);
  }

  /** No field short-circuits another: changing the input of `f` leaves the verdict on every other field as it was. */
  lemma OtherFieldsUnaffected(form: Form, f: Field, v: string, products: seq<Product>, editingId: Option<int>, today: Date, g: Field)
    requires g != f
    ensures var before := Errors(form, products, editingId, today);
      var after := Errors(form.With(f, v), products, editingId, today);
      (g in after <==> g in before) && (g in before ==> after[g] == before[g])
  {
    ErrorOfField(form, products, editingId, today, g);
    ErrorOfField(form.With(f, v), products, editingId, today, g);
  }

  // ---- The name ----

  /** Which message the name gets: required when blank, too long past 100 characters, taken when another record has it. */
  lemma NameRuleMessages(name: string, products: seq<Product>, editingId: Option<int>)
    ensures NameRule(name, products, editingId) == Some(NameRequired) <==> AllWhitespace(name)
    ensures NameRule(name, products, editingId) == Some(NameTooLong) <==> |Trim(name)| > 100
    ensures NameRule(name, products, editingId) == Some(NameTaken) <==>
      && 1 <= |Trim(name)| <= 100
      && exists i :: 0 <= i < |products| && Lower(products[i].name) == Lower(Trim(name)) && editingId != Some(products[i].id)
  {
  }

  /**
   * The name passes exactly when its trimmed form has 1 to 100 characters and
   * no record other than the one being edited has the same name ignoring case.
   */
  lemma NameRuleIff(name: string, products: seq<Product>, editingId: Option<int>)
    ensures NameRule(name, products, editingId).None? <==>
      && 1 <= |Trim(name)| <= 100
      && forall i :: 0 <= i < |products| && editingId != Some(products[i].id) ==> Lower(products[i].name) != Lower(Trim(name))
  {
  }

  /** Resubmitting a stored record's own name while that record is being edited is not a duplicate. */
  lemma OwnNameNotTaken(products: seq<Product>, k: nat)
    requires WellFormed(products) && k < |products|
    ensures NameRule(products[k].name, products, Some(products[k].id)).None?
  {
    var p := products[k];
    assert ValidData(p.Data());
    TrimKeepsTrimmed(p.name);
    forall i | 0 <= i < |products| && Some(p.id) != Some(products[i].id)
      ensures Lower(products[i].name) != Lower(p.name)
    {
      assert i != k;
    }
    NameRuleIff(p.name, products, Some(p.id));
  }

  /** On create, a name that matches a stored one after trimming and ignoring case is taken. */
  lemma StoredNameTakenOnCreate(name: string, products: seq<Product>, k: nat)
    requires k < |products| && Lower(products[k].name) == Lower(Trim(name))
    requires 1 <= |Trim(name)| <= 100
    ensures NameRule(name, products, None) == Some(NameTaken)
  {
    NameRuleMessages(name, products, None);
  }

  /** On create, a name that differs from a stored one only in ASCII case is taken. */
  lemma CaseVariantTakenOnCreate(name: string, products: seq<Product>, k: nat)
    requires k < |products| && SameUpToCase(products[k].name, Trim(name))
    requires 1 <= |Trim(name)| <= 100
    ensures NameRule(name, products, None) == Some(NameTaken)
  {
    SameUpToCaseFoldsEqual(products[k].name, Trim(name));
    StoredNameTakenOnCreate(name, products, k);
  }

  /** "LAPTOP GAMING" cannot be added next to the seed record "Laptop Gaming". */
  lemma SeedNameInCapitalsTaken()
    ensures NameRule("LAPTOP GAMING", InitialProducts, None) == Some(NameTaken)
  {
    var name := "LAPTOP GAMING";
    TrimKeepsTrimmed(name);
    CaseVariantTakenOnCreate(name, InitialProducts, 0);
  }

  // ---- Description, price, category, stock ----

  /** The description passes exactly when it is blank or its trimmed form has at least 20 characters. */
  lemma DescriptionRuleIff(description: string)
    ensures DescriptionRule(description).None? <==> AllWhitespace(description) || |Trim(description)| >= 20
  {
  }

  /** An empty price is missing; any other price must read as a number above 0. */
  lemma PriceRuleMessages(price: string)
    ensures PriceRule(price) == Some(PriceRequired) <==> price == []
    ensures PriceRule(price) == Some(PriceInvalid) <==> price != [] && (ParseNumber(price).None? || ParseNumber(price).value <= 0)
  {
  }

  /** An empty stock is missing; any other stock must read as a number of at least 0. */
  lemma StockRuleMessages(stock: string)
    ensures StockRule(stock) == Some(StockRequired) <==> stock == []
    ensures StockRule(stock) == Some(StockInvalid) <==> stock != [] && (ParseNumber(stock).None? || ParseNumber(stock).value < 0)
  {
  }

  /** Only an empty category is refused; every option of the select passes. */
  lemma CategoryRuleIff(category: string)
    ensures CategoryRule(category).None? <==> category != []
    ensures forall i :: 0 <= i < |CategoryOptions| ==> CategoryRule(CategoryOptions[i]).None?
  {
  }

  /**
   * A stock of "0" is accepted while a price of "0" is refused; an empty stock is
   * missing rather than 0, but a blank one (spaces only) reads as 0 and passes.
   */
  lemma ZeroStockPassesZeroPriceFails()
    ensures StockRule("0").None?
    ensures PriceRule("0") == Some(PriceInvalid)
    ensures StockRule("") == Some(StockRequired)
    ensures StockRule(" ").None?
    ensures PriceRule(" ") == Some(PriceInvalid)
  {
    ParseShowRoundTrip(0);
    assert IntToString(0) == "0";
    assert Trim(" ") == [] by { assert AllWhitespace(" "); }
  }

  /** Any number the edit form writes back from a stored stock or price passes its rule again. */
  lemma StoredNumbersPass(price: int, stock: int)
    requires price > 0 && stock >= 0
    ensures PriceRule(IntToString(price)).None? && StockRule(IntToString(stock)).None?
  {
    ParseShowRoundTrip(price);
    ParseShowRoundTrip(stock);
  }

  // ---- The release date ----

  /** The release date is refused exactly when it is empty or a readable day after today. */
  lemma ReleaseDateRuleIff(releaseDate: string, today: Date)
    ensures ReleaseDateRule(releaseDate, today).Some? <==>
      releaseDate == [] || (ParseDate(releaseDate).Some? && After(ParseDate(releaseDate).value, today))
  {
  }

  /** Which of the two messages the release date gets: "required" exactly when empty, "in the future" exactly for a readable later day. */
  lemma ReleaseDateRuleMessages(releaseDate: string, today: Date)
    ensures ReleaseDateRule(releaseDate, today) == Some(ReleaseDateRequired) <==> releaseDate == []
    ensures ReleaseDateRule(releaseDate, today) == Some(ReleaseDateInFuture) <==>
      releaseDate != [] && ParseDate(releaseDate).Some? && After(ParseDate(releaseDate).value, today)
  {
  }

  /** The date input's value for any day up to today passes; any later day is refused as in the future. */
  lemma ReleaseDayAgainstToday(d: Date, today: Date)
    requires WellFormedDate(d)
    ensures ReleaseDateRule(FormatDate(d), today).None? <==> !After(d, today)
    ensures After(d, today) ==> ReleaseDateRule(FormatDate(d), today) == Some(ReleaseDateInFuture)
  {
    ParseFormatRoundTrip(d);
  }

  /** A product released today is not in the future. */
  lemma ReleasedTodayPasses(today: Date)
    requires WellFormedDate(today)
    ensures ReleaseDateRule(FormatDate(today), today).None?
  {
    ReleaseDayAgainstToday(today, today);
    AfterIsStrictTotalOrder(today, today, today);
  }

  // ---- From the form to a record and back ----

  /**
   * The fields a successful submit stores: the trimmed name and description, the
   * price and stock read as numbers, the other inputs as they are.
   */
  function SubmittedData(form: Form): ProductData
    requires ParseNumber(form.price).Some? && ParseNumber(form.stock).Some?
  {
    ProductData(Trim(form.name), Trim(form.description), ParseNumber(form.price).value,
                form.category, form.releaseDate, ParseNumber(form.stock).value, form.isActive)
  }

  /** The buffer the edit action loads from a record: its fields, price and stock written as decimal strings. */
  function BufferOf(p: Product): Form {
    Form(p.name, p.description, IntToString(p.price), p.category, p.releaseDate, IntToString(p.stock), p.isActive)
  }

  /** A savable form stores valid data, under a name that no record other than the edited one uses. */
  lemma SavableFormGivesValidData(form: Form, products: seq<Product>, editingId: Option<int>, today: Date)
    requires FormValid(form, products, editingId, today)
    ensures ValidData(SubmittedData(form))
    ensures forall i :: 0 <= i < |products| && editingId != Some(products[i].id) ==>
      Lower(products[i].name) != Lower(SubmittedData(form).name)
  {
  }

  /** Loading a valid record into the form and saving it untouched stores exactly the record's fields. */
  lemma EditBufferRoundTrip(p: Product)
    requires ValidData(p.Data())
    ensures ParseNumber(BufferOf(p).price) == Some(p.price)
    ensures ParseNumber(BufferOf(p).stock) == Some(p.stock)
    ensures SubmittedData(BufferOf(p)) == p.Data()
  {
    ParseShowRoundTrip(p.price);
    ParseShowRoundTrip(p.stock);
    TrimKeepsTrimmed(p.name);
    TrimKeepsTrimmed(p.description);
  }

  /**
   * Every record of a well-formed list, loaded for editing, passes validation
   * unchanged, as long as its release date is not after today.
   */
  lemma EditedRecordRevalidates(products: seq<Product>, k: nat, today: Date)
    requires WellFormed(products) && k < |products|
    requires var released := ParseDate(products[k].releaseDate); !(released.Some? && After(released.value, today))
    ensures Errors(BufferOf(products[k]), products, Some(products[k].id), today) == map[]
  {
    var p := products[k];
    assert ValidData(p.Data());
    OwnNameNotTaken(products, k);
    StoredNumbersPass(p.price, p.stock);
    TrimKeepsTrimmed(p.description);
    DescriptionRuleIff(p.description);
    ErrorsEmptyIffRulesPass(BufferOf(p), products, Some(p.id), today);
  }
}

=== FILE: wrappers.dfy ===
/** The optional value used for lookups and parses that can fail. */
module Wrappers {

  datatype Option<+T> = None | Some(value: T)
}
